=== FILE: README.md ===
# react-server-detect `has`: a Dafny model

This project models the browser-capability detector of `react-server-detect`
(`packages/react-server-detect/src/has.js`). The detector answers `has(name)`
for 28 named capability tests. Server renders and browser hydration must agree on
these answers, so the browser stores its results in the `RF_BROWSER_CAPABILITIES`
cookie and later server renders read them back.

The model is functional. An immutable environment (`Environment.Env`) records four things:

- whether the `window`/`location`/`document` globals form a browser;
- which user-agent regular expressions match;
- the DOM facts the live probes read;
- the two widths the screen measurement compares.

Every probe is a pure function of that environment. `Detect.Has` takes the
environment, the parsed cookie and the argument. It returns the answer, the
capability map this call built (a local of `has`, has.js:520; it is dropped
when the call returns, so only the written-back map reaches a later call) and
the map written back to the cookie, if any.

Modules, leaf first:

- `Wrappers`: `Option`.
- `Text`: ASCII upper-casing (`toUpperCase`) and first-letter capitalisation (the vendor-prefix rewrite).
- `Values`: `Value = B(bool) | N(nat) | Null`, what a test returns and the cookie stores.
- `Breakpoints`: the breakpoint table, the exported `screenSizes` enumeration, and the last-satisfied-breakpoint resolver.
- `UserAgent`: user-agent facts and the phone/tablet/iOS/Android/web-view classifiers.
- `Environment`: the globals, the DOM facts, `InBrowser`, the measured width.
- `Probes`: every `_supports*`, `_has*` and `_is*` probe, and `_screenSize`.
- `Registry`: the `TestName` datatype for the 28 keys, key lookup, running one test, and the fill-all loop.
- `Detect`: the `has` dispatcher and the cross-tier cache properties.

## Model

| member | source | states |
|---|---|---|
| Breakpoints.ConfigIsWellFormed | packages/react-server-detect/src/has.js:22-29 | The table has five entries, starts at 0, and its thresholds strictly increase |
| Breakpoints.EnumerateFrom | packages/react-server-detect/src/has.js:33-37 | The `forEach` enumeration covers exactly the table's upper-cased names plus the accumulator, maps each name to its index when the names are distinct, and leaves keys the table does not mention alone |
| Breakpoints.EnumerateFromKeepsLast | packages/react-server-detect/src/has.js:33-37 | Later entries overwrite earlier ones: an entry whose key no later entry shares keeps its own index |
| Breakpoints.ScreenSizes | packages/react-server-detect/src/has.js:31-37 | The keys of `screenSizes` are exactly the upper-cased tier names |
| Breakpoints.ScreenSizesValues | packages/react-server-detect/src/has.js:22-37 | `screenSizes` is TINY→0, SMALL→1, MEDIUM→2, LARGE→3, HUGE→4, in table order |
| Breakpoints.ConfigNamesDistinct | packages/react-server-detect/src/has.js:24-28 | No two tiers share a name, so a name identifies one tier |
| Breakpoints.ConfigNamesKnown | packages/react-server-detect/src/has.js:134-137 | Every tier name is non-empty, changes when upper-cased, and passes the `screenSizes` check |
| Breakpoints.LastFit | packages/react-server-detect/src/has.js:145-151 | The reference resolver picks the LAST entry whose threshold is at most the width; it gives None exactly when no threshold is satisfied |
| Breakpoints.ScanBreakpoints | packages/react-server-detect/src/has.js:145-151 | The forward `forEach` scan that overwrites the index and name leaves exactly the last fitting entry and its name |
| Breakpoints.MeasuredIndex | packages/react-server-detect/src/has.js:143-151 | In a browser the tier is always defined: its threshold is at most the width and every later threshold exceeds it |
| Breakpoints.MeasuredIndexBracket | packages/react-server-detect/src/has.js:145-151 | A width is in tier k iff k's threshold is at most the width and the next threshold is above it |
| Breakpoints.MeasuredIndexExamples | packages/react-server-detect/src/has.js:22-29 | 650→MEDIUM, 0→TINY, 5000→HUGE, 399→TINY, 400→SMALL |
| Breakpoints.MeasuredIndexMonotone | packages/react-server-detect/src/has.js:145-151 | The measured tier never decreases as the width grows |
| Text.Upper | packages/react-server-detect/src/has.js:136 | Upper-casing keeps the length and upper-cases exactly the ASCII lower-case letters |
| Text.Capitalize | packages/react-server-detect/src/has.js:201-203 | Only a leading lower-case letter is upper-cased; the rest of the name is kept |
| Environment.InBrowser | packages/react-server-detect/src/has.js:179-186 | True only when window, location and document are all defined and window.location and window.document are those same globals, so a partial shim is not a browser |
| Environment.MeasuredWidth | packages/react-server-detect/src/has.js:116-124 | The measured width is the larger of the scroll width and the inner width |
| UserAgent.Classify | packages/react-server-detect/src/has.js:220-239 | Phone iff the phone expression matches; tablet iff mobile and not phone; otherwise desktop |
| UserAgent.PhoneAndTabletAreExclusive | packages/react-server-detect/src/has.js:232-239 | A user agent is never both a known phone and a known tablet; tablet ⇔ mobile ∧ ¬phone |
| UserAgent.WebViewRules | packages/react-server-detect/src/has.js:265-281 | iOS web view ⇔ iOS ∧ no "Safari"; Android web view ⇔ Android ∧ a `Version/x.y` marker |
| UserAgent.MobilePlatformsAreNotDesktop | packages/react-server-detect/src/has.js:4-9 | Every iOS or Android user agent also matches the mobile expression, so it classifies as phone or tablet |
| Probes.CssPropertyScan | packages/react-server-detect/src/has.js:191-213 | The live CSS check finds the property iff it is present unprefixed or under one of Khtml/Ms/O/Moz/Webkit followed by the capitalised name |
| Probes.OffBrowserDefaults | packages/react-server-detect/src/has.js:191-506 | Off-browser, CSS, touch, geolocation, range, placeholder, validation, required notice and ActiveX are true; both storages are false; IE11 is true, so placeholder-on-focus is false; WebGL is false iff the user agent is "MSIE 0/1…" |
| Probes.PrefetchRules | packages/react-server-detect/src/has.js:98-109 | Prefetch-in-head is false iff Chrome or Opera; prefetch-in-iframe is false iff Firefox, or Trident without "MSIE n" |
| Probes.InBrowserRefinements | packages/react-server-detect/src/has.js:191-506 | In a browser, CSS is the prefix check; range is false on any MSIE or Netscape+Trident agent; required notice = validation ∧ ¬iOS; placeholder-on-focus = placeholder ∧ ¬IE11; IE11 = ActiveX hidden but named ∧ Trident; storage is the round trip; a throwing WebGL context is false |
| Probes.HasHistory | packages/react-server-detect/src/has.js:468-470 | `pushState` is present; defined only in a browser, because `window` is read unguarded |
| Probes.RoundTripNeedsEveryStep | packages/react-server-detect/src/has.js:493-502 | The storage probe is true iff reading the area, setting the key and removing it all succeed |
| Probes.FallbackIndex | packages/react-server-detect/src/has.js:152-164 | Off-browser the tier is SMALL for a phone, MEDIUM for a tablet and LARGE otherwise |
| Probes.ScreenSize | packages/react-server-detect/src/has.js:132-172 | An unknown size is null; a known size is a boolean; no size is a tier ordinal, measured in a browser and guessed from the user agent off it; true only in a browser for the measured tier's name |
| Probes.UnknownSizeIsNull | packages/react-server-detect/src/has.js:134-140 | An unknown size name is null whatever the environment, so nothing is measured first |
| Probes.NamedSizeComparesMeasuredName | packages/react-server-detect/src/has.js:166-171 | A known size is compared with the measured tier's name, and nothing matches off-browser |
| Probes.NamedSizeFalseOffBrowser | packages/react-server-detect/src/has.js:152-168 | Off-browser every `screen-size-<name>` query is false, because only measuring sets the name |
| Probes.NamedSizeMatchesMeasuredTier | packages/react-server-detect/src/has.js:145-168 | In a browser, asking for tier k's name is true iff the measured tier is k |
| Probes.UpperCaseSizeNeverMatches | packages/react-server-detect/src/has.js:134-168 | Every upper-cased tier name ("TINY" … "HUGE") passes the case-insensitive check but the comparison is case-sensitive, so it is false in every environment |
| Probes.MobileFallbackIsAtMostMedium | packages/react-server-detect/src/has.js:157-163 | Off-browser an iOS or Android user agent is guessed SMALL or MEDIUM, never LARGE |
| Registry.Position | packages/react-server-detect/src/has.js:41-70 | Every test has a place in the registration order |
| Registry.AllTestsComplete | packages/react-server-detect/src/has.js:41-70 | The registry lists 28 tests and every test name is among them |
| Registry.KeysInjective | packages/react-server-detect/src/has.js:41-70 | Distinct tests have distinct keys |
| Registry.PositionInvertsAllTests | packages/react-server-detect/src/has.js:41-70 | The registration order lists each test once |
| Registry.AllTestsHaveDistinctKeys | packages/react-server-detect/src/has.js:41-70 | No key is registered twice |
| Registry.KeysOfCount | packages/react-server-detect/src/has.js:41-70 | A list of tests with pairwise distinct keys has as many keys as tests |
| Registry.RegisteredKeyCount | packages/react-server-detect/src/has.js:41-70 | Exactly 28 keys are registered |
| Registry.Find | packages/react-server-detect/src/has.js:536 | A found test is the first listed test with the searched key; not found means no listed test has that key |
| Registry.Lookup | packages/react-server-detect/src/has.js:536 | `TESTS[name]` finds a test with that key, and finds none iff the name is not registered |
| Registry.LookupKey | packages/react-server-detect/src/has.js:41-70 | Looking up a test's own key returns that test |
| Registry.RunTest | packages/react-server-detect/src/has.js:41-70 | `screen-size` gives a tier ordinal below 5; every other test gives a boolean, never null |
| Registry.NamedSize | packages/react-server-detect/src/has.js:49-53 | `screen-size-<tier>` is true iff in a browser and the measured tier is that tier |
| Registry.UserAgentTestsIgnoreTier | packages/react-server-detect/src/has.js:54-64 | Prefetch, store and web-view tests depend only on the user agent, in and out of the browser |
| Registry.FillFrom | packages/react-server-detect/src/has.js:527-531 | The fill loop stores every listed test's result under its key and leaves other keys alone |
| Registry.FillAll | packages/react-server-detect/src/has.js:524-533 | Filling an empty cookie in a browser yields exactly the registered keys, each with its test's result |
| Registry.FillAllCoversEveryTest | packages/react-server-detect/src/has.js:526-531 | The fill covers exactly the registered keys, each with its test's result |
| Registry.FillCoversEveryListedTest | packages/react-server-detect/src/has.js:526-531 | Filling an empty map from any list that names every test yields exactly that list's keys, each holding its test's live result |
| Detect.Load | packages/react-server-detect/src/has.js:519-533 | A present cookie is used as it is; an absent one is empty off-browser, and in a browser holds exactly the registered keys, each with its test's live result |
| Detect.Has | packages/react-server-detect/src/has.js:511-555 | Non-string or unregistered names give null and no cookie; only a browser persists, and it persists the in-memory map; in a browser the test is re-run, stored and persisted; off-browser a cached value is returned unchanged |
| Detect.BrowserIsAuthoritative | packages/react-server-detect/src/has.js:536-553 | In a browser the cookie never changes the answer, and every other loaded key is persisted as it was |
| Detect.FirstBrowserVisitPersistsEveryTest | packages/react-server-detect/src/has.js:524-553 | A browser query with no cookie persists all 28 registered results |
| Detect.BrowserQueryIsIdempotent | packages/react-server-detect/src/has.js:536-553 | Repeating a browser query against the cookie it wrote yields the same answer and the same cookie |
| Detect.ServerCacheHitIgnoresEnvironment | packages/react-server-detect/src/has.js:537-543 | Off-browser a cache hit returns the cached value and map and runs no probe, whatever the environment |
| Detect.ServerCacheMissIsNotPersisted | packages/react-server-detect/src/has.js:538-553 | Off-browser a miss runs the test, stores it in memory only, and persists nothing |
| Detect.ServerAgreesWithBrowser | packages/react-server-detect/src/has.js:536-553 | A server given the cookie a browser wrote answers the browser's value for the queried test and every other stored key |
| Detect.ServerReplaysFirstBrowserVisit | packages/react-server-detect/src/has.js:524-553 | After a first browser visit, the server answers every registered test with that browser's live result |

## Left out

- Regular-expression matching is not modelled. Each expression the user agent is tested against is a boolean field of `UserAgent.UserAgent`. `UserAgent.Consistent` records the implications the expression texts guarantee.
- `Text.Upper`: models `toUpperCase` on ASCII letters only, not full Unicode case mapping (for example the dotless ı, which upper-cases to I).
- The cookie library, `JSON.parse`/`JSON.stringify`, the cookie name, and the cookie attributes (30-day expiry, host domain, root path) are left out. The parsed cookie is an input and the written map is an output.
- An unparseable cookie is left out, because the model takes the cookie already parsed. A corrupted cookie makes `has` throw at `JSON.parse` (has.js:522), and the model follows the code.
- Cookie values other than booleans, non-negative integers and null are left out. So is a cookie that parses to a truthy non-object, or to an array.
- `console.error` logging is left out.
- `Registry.Lookup`: names inherited from `Object.prototype` (such as `has('toString')`) are treated as unregistered. In the source, `TESTS[name]` finds those inherited members.
- `Detect.Has`: requires that an off-browser `history` query be a cache hit. `_hasHistory` reads `window` without a browser check, so on a server without `window` that query throws.
- `Registry.RunTest`: requires a browser for the `history` test for the same reason. A shimmed `window` that is not a coherent browser is not modelled.
- The third branch of `has` (re-running the test when the cached value is undefined) cannot be reached after the first condition, so it has no counterpart.
- DOM and `window` access (`document.createElement`, `canvas.getContext`, `scrollWidth`/`innerWidth`, `navigator`) is not performed. Each access is a recorded field of `Environment.Dom`.
- The measured height is left out because nothing reads it.
- `_hasStorage` is left out for type strings other than `'local'` and `'session'`; the registry never passes one.

=== FILE: breakpoints.dfy ===
/** The ordered screen-width breakpoint table, the label -> ordinal
    enumeration built from it, and the "last satisfied breakpoint" resolver. */
module Breakpoints {
  import opened Wrappers
  import opened Text

  datatype Breakpoint = Breakpoint(name: string, minWidth: nat)

  /** The table, smallest tier first. Consumers compare tier ordinals, so the
      order is part of the contract. */
  const Config: seq<Breakpoint> := [
    Breakpoint("tiny", 0),
    Breakpoint("small", 400),
    Breakpoint("medium", 600),
    Breakpoint("large", 900),
    Breakpoint("huge", 1200)
  ]

  const TINY: nat := 0
  const SMALL: nat := 1
  const MEDIUM: nat := 2
  const LARGE: nat := 3
  const HUGE: nat := 4

  predicate StrictlyIncreasing(table: seq<Breakpoint>) {
    forall i, j :: 0 <= i < j < |table| ==> table[i].minWidth < table[j].minWidth
  }

  /** No two labels of the table upper-case to the same enumeration key. */
  predicate DistinctKeys(table: seq<Breakpoint>) {
    forall i, j :: 0 <= i < j < |table| ==> Upper(table[i].name) != Upper(table[j].name)
  }

  lemma ConfigIsWellFormed()
    ensures |Config| == 5
    ensures Config[0].minWidth == 0
    ensures StrictlyIncreasing(Config)
  {
  }

  /** The `forEach` that builds the enumeration: entry i stores index i under its
      upper-cased label, so a later entry with the same key overwrites an earlier one. */
  function EnumerateFrom(table: seq<Breakpoint>, i: nat, acc: map<string, nat>): (m: map<string, nat>)
    requires i <= |table|
    ensures m.Keys == acc.Keys + (set j | i <= j < |table| :: Upper(table[j].name))
    ensures DistinctKeys(table) ==> forall j :: i <= j < |table| ==> m[Upper(table[j].name)] == j
    ensures forall k :: k in acc && (forall j :: i <= j < |table| ==> Upper(table[j].name) != k) ==> m[k] == acc[k]
    decreases |table| - i
  {
    if i == |table| then acc
    else EnumerateFrom(table, i + 1, acc[Upper(table[i].name) := i])
  }

  /** Later entries overwrite earlier ones: an entry whose key no later entry
      shares is the one the enumeration keeps. */
  lemma {:induction false} EnumerateFromKeepsLast(table: seq<Breakpoint>, i: nat, acc: map<string, nat>, j: nat)
    requires i <= j < |table|
    requires forall j2 :: j < j2 < |table| ==> Upper(table[j2].name) != Upper(table[j].name)
    ensures EnumerateFrom(table, i, acc)[Upper(table[j].name)] == j
    decreases |table| - i
  {
    var next := acc[Upper(table[i].name) := i];
    if i < j {
      EnumerateFromKeepsLast(table, i + 1, next, j);
    }
  }

  /** The exported `screenSizes` enumeration: upper-cased label -> ordinal. */
  function ScreenSizes(): (m: map<string, nat>)
    ensures m.Keys == set j | 0 <= j < |Config| :: Upper(Config[j].name)
  {
    EnumerateFrom(Config, 0, map[])
  }

  lemma ScreenSizesValues()
    ensures ScreenSizes() == map["TINY" := TINY, "SMALL" := SMALL, "MEDIUM" := MEDIUM, "LARGE" := LARGE, "HUGE" := HUGE]
  {
    UpperOfName(0);
    UpperOfName(1);
    UpperOfName(2);
    UpperOfName(3);
    UpperOfName(4);
    calc {
      EnumerateFrom(Config, 0, map[]);
      EnumerateFrom(Config, 1, map["TINY" := 0]);
      EnumerateFrom(Config, 2, map["TINY" := 0, "SMALL" := 1]);
      EnumerateFrom(Config, 3, map["TINY" := 0, "SMALL" := 1, "MEDIUM" := 2]);
      EnumerateFrom(Config, 4, map["TINY" := 0, "SMALL" := 1, "MEDIUM" := 2, "LARGE" := 3]);
      EnumerateFrom(Config, 5, map["TINY" := 0, "SMALL" := 1, "MEDIUM" := 2, "LARGE" := 3, "HUGE" := 4]);
    }
  }

  /** The tier names are distinct, so a name identifies its tier. */
  lemma ConfigNamesDistinct()
    ensures forall i, j :: 0 <= i < j < |Config| ==> Config[i].name != Config[j].name
  {
  }

  /** Every tier name is non-empty, lower-case, and listed in the enumeration
      under its upper-cased form. */
  lemma ConfigNamesKnown(i: nat)
    requires i < |Config|
    ensures Config[i].name != ""
    ensures Upper(Config[i].name) != Config[i].name
    ensures Upper(Config[i].name) in ScreenSizes()
  {
    UpperOfName(i);
    ScreenSizesValues();
    assert Upper(Config[i].name)[0] != Config[i].name[0];
  }

  lemma UpperOfName(i: nat)
    requires i < |Config|
    ensures Upper(Config[i].name) == ["TINY", "SMALL", "MEDIUM", "LARGE", "HUGE"][i]
  {
    if i == 0 { assert Upper("tiny") == "TINY"; }
    else if i == 1 { assert Upper("small") == "SMALL"; }
    else if i == 2 { assert Upper("medium") == "MEDIUM"; }
    else if i == 3 { assert Upper("large") == "LARGE"; }
    else { assert Upper("huge") == "HUGE"; }
  }

  /** Reference definition: the index of the LAST entry whose threshold is at
      most w, or None when no threshold is satisfied. */
  function LastFit(table: seq<Breakpoint>, w: nat): (r: Option<nat>)
    ensures r.None? <==> forall j :: 0 <= j < |table| ==> w < table[j].minWidth
    ensures r.Some? ==> r.value < |table| && table[r.value].minWidth <= w
    ensures r.Some? ==> forall j :: r.value < j < |table| ==> w < table[j].minWidth
    decreases |table|
  {
    if |table| == 0 then None
    else if table[|table| - 1].minWidth <= w then Some(|table| - 1)
    else LastFit(table[..|table| - 1], w)
  }

  /** The measured path of `_screenSize`: a forward scan that overwrites the
      remembered index and size at every entry the width satisfies. */
  method ScanBreakpoints(table: seq<Breakpoint>, w: nat) returns (index: Option<nat>, size: Option<string>)
    ensures index == LastFit(table, w)
    ensures index.Some? ==> index.value < |table| && size == Some(table[index.value].name)
    ensures index.None? ==> size.None?
  {
    index, size := None, None;
    var k := 0;
    while k < |table|
      invariant 0 <= k <= |table|
      invariant index == LastFit(table[..k], w)
      invariant index.Some? ==> index.value < k && size == Some(table[index.value].name)
      invariant index.None? ==> size.None?
    {
      assert table[..k + 1][..k] == table[..k];
      if w >= table[k].minWidth {
        index, size := Some(k), Some(table[k].name);
      }
      k := k + 1;
    }
    assert table[..k] == table;
  }

  /** The tier of a measured width: always defined because the first threshold is 0. */
  function MeasuredIndex(w: nat): (i: nat)
    ensures i < |Config|
    ensures Config[i].minWidth <= w
    ensures forall j :: i < j < |Config| ==> w < Config[j].minWidth
  {
    assert Config[0].minWidth == 0;
    LastFit(Config, w).value
  }

  /** A width lies in tier k exactly when it is bracketed by k's threshold and the next one. */
  lemma MeasuredIndexBracket(w: nat, k: nat)
    requires k < |Config|
    ensures MeasuredIndex(w) == k <==>
      Config[k].minWidth <= w && (k + 1 < |Config| ==> w < Config[k + 1].minWidth)
  {
    ConfigIsWellFormed();
  }

  lemma MeasuredIndexExamples()
    ensures MeasuredIndex(650) == MEDIUM
    ensures MeasuredIndex(0) == TINY
    ensures MeasuredIndex(5000) == HUGE
    ensures MeasuredIndex(399) == TINY && MeasuredIndex(400) == SMALL
  {
    MeasuredIndexBracket(650, MEDIUM);
    MeasuredIndexBracket(0, TINY);
    MeasuredIndexBracket(5000, HUGE);
    MeasuredIndexBracket(399, TINY);
    MeasuredIndexBracket(400, SMALL);
  }

  lemma MeasuredIndexMonotone(w1: nat, w2: nat)
    requires w1 <= w2
    ensures MeasuredIndex(w1) <= MeasuredIndex(w2)
  {
  }
}

=== FILE: detect.dfy ===
/** The public `has(name)` query. It validates the name, loads the
    RF_BROWSER_CAPABILITIES cookie, and then either re-runs the test and
    persists the whole map (in a browser) or answers from the cookie and falls
    back to running the test without persisting (off-browser). */
module Detect {
  import opened Wrappers
  import opened Values
  import opened Environment
  import opened Registry

  /** The argument of `has`: JavaScript accepts any value, but only strings are queries. */
  datatype Arg = Str(s: string) | NonString

  /** The parsed incoming cookie: None when it is absent or parses to a falsy
      value (such as `null`); Some(map) when it is a JSON object, even `{}`. */
  type Cookie = Option<map<string, Value>>

  /** The answer, the capability map this call built (a local of `has`,
      has.js:520; it is dropped when the call returns, so only `persisted`
      reaches a later call), and the map written back to the cookie, if any. */
  datatype HasResult = HasResult(value: Value, memory: map<string, Value>, persisted: Option<map<string, Value>>)

  /** The one way the modelled `has` can fail: asking off-browser for the history test when
      the cookie does not hold it runs a probe that reads `window` unguarded. */
  predicate Defined(env: Env, cookie: Cookie, arg: Arg) {
    arg == Str(Key(History)) && !InBrowser(env.globals) ==>
      cookie.Some? && Key(History) in cookie.value
  }

  /** The capability map at the start of a query: the cookie's map when there
      is one; otherwise empty, and in a browser filled with every test first. */
  function Load(env: Env, cookie: Cookie): (data: map<string, Value>)
    ensures cookie.Some? ==> data == cookie.value
    ensures cookie.None? && InBrowser(env.globals) ==>
              data.Keys == RegisteredKeys() && forall t :: Key(t) in data && data[Key(t)] == RunTest(env, t)
    ensures cookie.None? && !InBrowser(env.globals) ==> data == map[]
  {
    match cookie
    case Some(m) => m
    case None =>
      if InBrowser(env.globals) then
        FillAll(env)
      else map[]
  }

  function Has(env: Env, cookie: Cookie, arg: Arg): (r: HasResult)
    requires Defined(env, cookie, arg)
    // A non-string or unregistered name is null and writes no cookie.
    ensures arg.NonString? || Lookup(arg.s).None? ==> r.value == Null && r.persisted.None?
    // Only a browser persists, and it persists exactly the in-memory map.
    ensures r.persisted.Some? ==> InBrowser(env.globals) && r.persisted.value == r.memory
    ensures !InBrowser(env.globals) ==> r.persisted.None?
    // In a browser a registered test is always re-run, stored and persisted.
    ensures InBrowser(env.globals) && arg.Str? && Lookup(arg.s).Some? ==>
      && r.value == RunTest(env, Lookup(arg.s).value)
      && r.value != Null
      && arg.s in r.memory && r.memory[arg.s] == r.value
      && r.persisted == Some(r.memory)
    // Off-browser a cached value is returned as it is, and the map is unchanged.
    ensures !InBrowser(env.globals) && arg.Str? && Lookup(arg.s).Some?
            && cookie.Some? && arg.s in cookie.value ==>
      r.value == cookie.value[arg.s] && r.memory == cookie.value
  {
    match arg
    case NonString => HasResult(Null, map[], None)
    case Str(name) =>
      var data := Load(env, cookie);
      match Lookup(name)
      case None => HasResult(Null, data, None)
      case Some(t) =>
        if InBrowser(env.globals) || name !in data then
          var outcome := RunTest(env, t);
          var stored := data[name := outcome];
          HasResult(outcome, stored, if InBrowser(env.globals) then Some(stored) else None)
        else
          HasResult(data[name], data, None)
  }

  // ---------------------------------------------------------------- Properties

  lemma StoringSameValueIsNoChange<K, V>(m: map<K, V>, k: K, v: V)
    requires k in m && m[k] == v
    ensures m[k := v] == m
  {
  }

  /** In a browser the cookie never decides the answer, and every key other
      than the queried one is persisted as loaded. */
  lemma BrowserIsAuthoritative(env: Env, c1: Cookie, c2: Cookie, t: TestName)
    requires InBrowser(env.globals)
    ensures Has(env, c1, Str(Key(t))).value == Has(env, c2, Str(Key(t))).value == RunTest(env, t)
    ensures Has(env, c1, Str(Key(t))).persisted == Some(Load(env, c1)[Key(t) := RunTest(env, t)])
  {
    LookupKey(t);
  }

  /** A first browser visit (no cookie) runs and persists every registered test. */
  lemma FirstBrowserVisitPersistsEveryTest(env: Env, t: TestName)
    requires InBrowser(env.globals)
    ensures Has(env, None, Str(Key(t))).persisted == Some(FillAll(env))
    ensures Has(env, None, Str(Key(t))).persisted.value.Keys == RegisteredKeys()
    ensures forall u :: Has(env, None, Str(Key(t))).persisted.value[Key(u)] == RunTest(env, u)
  {
    LookupKey(t);
    var data := Load(env, None);
    StoringSameValueIsNoChange(data, Key(t), RunTest(env, t));
  }

  /** Repeating a browser query against the cookie it wrote changes nothing. */
  lemma BrowserQueryIsIdempotent(env: Env, cookie: Cookie, t: TestName)
    requires InBrowser(env.globals)
    ensures Has(env, Has(env, cookie, Str(Key(t))).persisted, Str(Key(t))) == Has(env, cookie, Str(Key(t)))
  {
    LookupKey(t);
    var r := Has(env, cookie, Str(Key(t)));
    StoringSameValueIsNoChange(r.memory, Key(t), r.value);
  }

  /** Off-browser a cache hit is answered without running anything: the
      answer does not depend on the environment at all. */
  lemma ServerCacheHitIgnoresEnvironment(e1: Env, e2: Env, m: map<string, Value>, t: TestName)
    requires !InBrowser(e1.globals) && !InBrowser(e2.globals)
    requires Key(t) in m
    ensures Has(e1, Some(m), Str(Key(t))) == Has(e2, Some(m), Str(Key(t))) == HasResult(m[Key(t)], m, None)
  {
    LookupKey(t);
  }

  /** Off-browser a cache miss runs the fallback and stores the result only in
      this call's map, which is dropped when the call returns: nothing is
      persisted, so the next call with the same cookie runs the fallback again. */
  lemma ServerCacheMissIsNotPersisted(env: Env, cookie: Cookie, t: TestName)
    requires !InBrowser(env.globals)
    requires t != History
    requires cookie.None? || Key(t) !in cookie.value
    ensures Has(env, cookie, Str(Key(t))).value == RunTest(env, t)
    ensures Has(env, cookie, Str(Key(t))).memory == Load(env, cookie)[Key(t) := RunTest(env, t)]
    ensures Has(env, cookie, Str(Key(t))).persisted.None?
  {
    LookupKey(t);
  }

  /** The cross-tier promise: after a browser query persisted its map, a
      server render that receives that cookie answers the queried test with
      the browser's live result, and every other test the browser's map holds
      (all of them when there was no cookie) with the browser's stored value. */
  lemma ServerAgreesWithBrowser(browser: Env, server: Env, cookie: Cookie, t: TestName, other: TestName)
    requires InBrowser(browser.globals) && !InBrowser(server.globals)
    requires cookie.None? || Key(other) in cookie.value
    ensures Has(server, Has(browser, cookie, Str(Key(t))).persisted, Str(Key(t))).value == RunTest(browser, t)
    ensures Has(server, Has(browser, cookie, Str(Key(t))).persisted, Str(Key(other))).value
         == Has(browser, cookie, Str(Key(t))).memory[Key(other)]
  {
    LookupKey(t);
    LookupKey(other);
    var first := Has(browser, cookie, Str(Key(t)));
    BrowserIsAuthoritative(browser, cookie, cookie, t);
    assert Key(other) in Load(browser, cookie);
    assert first.persisted == Some(first.memory);
    assert Key(other) in first.memory;
  }

  /** After a first browser visit the server answers every registered test
      exactly as that browser's live probe did. */
  lemma ServerReplaysFirstBrowserVisit(browser: Env, server: Env, t: TestName, u: TestName)
    requires InBrowser(browser.globals) && !InBrowser(server.globals)
    ensures Has(server, Has(browser, None, Str(Key(t))).persisted, Str(Key(u))).value == RunTest(browser, u)
  {
    FirstBrowserVisitPersistsEveryTest(browser, t);
    LookupKey(u);
  }
}

=== FILE: environment.dfy ===
/** Everything a probe can observe: the global objects that decide whether the
    code runs in a browser, the user agent, and the DOM facts the live probes
    read. Real DOM access is replaced by these recorded answers. */
module Environment {
  import opened UserAgent

  /** The globals `_inBrowser` inspects. */
  datatype Globals = Globals(
    windowDefined: bool,
    locationDefined: bool,
    documentDefined: bool,
    windowLocationIsLocation: bool,   // window.location === location
    windowDocumentIsDocument: bool    // window.document === document
  )

  /** True only for a coherent window/location/document triple; a partial shim is not a browser. */
  predicate InBrowser(g: Globals) {
    g.windowDefined && g.locationDefined && g.documentDefined
    && g.windowLocationIsLocation && g.windowDocumentIsDocument
  }

  /** What one `canvas.getContext(...)` call does: returns a context or not, or throws. */
  datatype GetContext = Returns(context: bool) | Throws

  /** One web-storage area as the set/remove round-trip experiences it. */
  datatype StorageArea = StorageArea(
    accessThrows: bool,      // reading window.localStorage / window.sessionStorage throws
    present: bool,           // the property holds a storage object (otherwise setItem throws a TypeError)
    setItemThrows: bool,     // e.g. a zero quota in private browsing
    removeItemThrows: bool
  )

  datatype Dom = Dom(
    style: set<string>,              // property names `in` a fresh div's style object
    ontouchstart: bool,              // 'ontouchstart' in window
    documentTouch: bool,             // window.DocumentTouch && document instanceof DocumentTouch
    geolocation: bool,               // 'geolocation' in navigator
    createRange: bool,               // document.createRange is defined
    getSelection: bool,              // window.getSelection is defined
    netscape: bool,                  // navigator.appName === 'Netscape'
    inputPlaceholder: bool,          // 'placeholder' in a fresh input
    inputCheckValidity: bool,        // 'checkValidity' in a fresh input
    activeXTruthy: bool,             // !!window.ActiveXObject
    activeXInWindow: bool,           // 'ActiveXObject' in window
    webGLContextType: bool,          // !!window.WebGLRenderingContext
    webgl: GetContext,               // canvas.getContext('webgl')
    experimentalWebgl: GetContext,   // canvas.getContext('experimental-webgl')
    historyPushState: bool,          // !!(window.history && window.history.pushState)
    localStorage: StorageArea,
    sessionStorage: StorageArea,
    scrollWidth: nat,                // document.documentElement.scrollWidth
    innerWidth: nat                  // window.innerWidth || 0
  )

  datatype Env = Env(globals: Globals, ua: UserAgent, dom: Dom)

  /** The width `_measureScreen` reports: the larger of the scroll width and the inner width. */
  function MeasuredWidth(dom: Dom): (w: nat)
    ensures w >= dom.scrollWidth && w >= dom.innerWidth
    ensures w == dom.scrollWidth || w == dom.innerWidth
  {
    if dom.scrollWidth >= dom.innerWidth then dom.scrollWidth else dom.innerWidth
  }
}

=== FILE: probes.dfy ===
/** The individual capability probes. Each one has a live branch, taken when
    the globals form a browser, and an off-browser answer: an optimistic
    default, a user-agent heuristic, or (for storage) a pessimistic default. */
module Probes {
  import opened Wrappers
  import opened Text
  import opened Values
  import opened Breakpoints
  import opened UserAgent
  import opened Environment

  // ---------------------------------------------------------------- CSS

  /** Vendor prefixes tried after the unprefixed name, listed in declaration order. */
  const Vendors: seq<string> := ["Khtml", "Ms", "O", "Moz", "Webkit"]

  /** The property is on the style object unprefixed, or under one of the
      vendor prefixes followed by the name with its first letter upper-cased. */
  predicate CssPropertyPresent(style: set<string>, prop: string) {
    prop in style || exists i :: 0 <= i < |Vendors| && Vendors[i] + Capitalize(prop) in style
  }

  /** The live CSS check as written: the unprefixed name first, then the
      prefixes from the last one down to the first. */
  method CssPropertyScan(style: set<string>, prop: string) returns (found: bool)
    ensures found == CssPropertyPresent(style, prop)
  {
    if prop in style {
      return true;
    }
    var capital := Capitalize(prop);
    var len := |Vendors|;
    while len > 0
      invariant 0 <= len <= |Vendors|
      invariant forall i :: len <= i < |Vendors| ==> Vendors[i] + capital !in style
    {
      len := len - 1;
      if Vendors[len] + capital in style {
        return true;
      }
    }
    return false;
  }

  predicate SupportsCss(env: Env, prop: string) {
    if InBrowser(env.globals) then CssPropertyPresent(env.dom.style, prop) else true
  }

  // ---------------------------------------------------------------- Prefetch

  /** Blink-based browsers fetch prefetched assets before the current page's content. */
  predicate DoPrefetchInHead(ua: UserAgent) {
    if ua.chrome then false
    else if ua.opera then false
    else true
  }

  /** Firefox, and Trident engines that are not "MSIE n", should not prefetch in an iframe. */
  predicate DoPrefetchInIframe(ua: UserAgent) {
    if ua.firefox then false
    else if ua.trident && !ua.msieVersion then false
    else true
  }

  // ---------------------------------------------------------------- Screen size

  /** The off-browser guess: a phone is SMALL, a tablet MEDIUM, anything else LARGE. */
  function FallbackIndex(ua: UserAgent): (i: nat)
    ensures i == SMALL <==> Classify(ua) == Phone
    ensures i == MEDIUM <==> Classify(ua) == Tablet
    ensures i == LARGE <==> Classify(ua) == Desktop
  {
    if IsKnownPhoneDevice(ua) then SMALL
    else if IsKnownTabletDevice(ua) then MEDIUM
    else LARGE
  }

  /** A size was asked for: JavaScript treats undefined and "" alike as "no size". */
  predicate Requested(requested: Option<string>) {
    requested.Some? && requested.value != ""
  }

  /** The enumeration has the requested size under its upper-cased name. */
  predicate IsKnownSize(size: string) {
    Upper(size) in ScreenSizes()
  }

  /** `_screenSize(requested)`. With no size requested it is the tier ordinal:
      measured in a browser, guessed from the user agent otherwise. With a size
      it is whether the measured tier carries exactly that name, so it is false
      whenever nothing was measured. An unknown size is null, before any measurement. */
  function ScreenSize(env: Env, requested: Option<string>): (r: Value)
    ensures Requested(requested) && !IsKnownSize(requested.value) ==> r == Null
    ensures Requested(requested) && IsKnownSize(requested.value) ==> r.B?
    ensures !Requested(requested) ==> r.N? && r.n < |Config|
    ensures r.N? && InBrowser(env.globals) ==> r.n == MeasuredIndex(MeasuredWidth(env.dom))
    ensures r.N? && !InBrowser(env.globals) ==> r.n == FallbackIndex(env.ua)
    ensures r == B(true) ==>
      InBrowser(env.globals) && Config[MeasuredIndex(MeasuredWidth(env.dom))].name == requested.value
  {
    if Requested(requested) && !IsKnownSize(requested.value) then Null
    else
      var measured: Option<nat> :=
        if InBrowser(env.globals) then Some(MeasuredIndex(MeasuredWidth(env.dom))) else None;
      var index := if measured.Some? then measured.value else FallbackIndex(env.ua);
      var size: Option<string> := if measured.Some? then Some(Config[index].name) else None;
      if Requested(requested) then B(size == Some(requested.value)) else N(index)
  }

  // ---------------------------------------------------------------- Input and events

  predicate SupportsTouchEvents(env: Env) {
    if InBrowser(env.globals) then env.dom.ontouchstart || env.dom.documentTouch else true
  }

  predicate SupportsGeolocation(env: Env) {
    if InBrowser(env.globals) then env.dom.geolocation else true
  }

  /** Range inputs are treated as unsupported on any MSIE user agent and on
      Netscape-named Trident engines, whatever the DOM offers. */
  predicate SupportsRangeInput(env: Env) {
    if InBrowser(env.globals) then
      env.dom.createRange && env.dom.getSelection
      && !(env.ua.msie || (env.dom.netscape && env.ua.trident))
    else true
  }

  predicate SupportsInputPlaceholder(env: Env) {
    if InBrowser(env.globals) then env.dom.inputPlaceholder else true
  }

  /** True when ActiveXObject is usable, or when the window does not mention it at all. */
  predicate SupportsActiveXObject(env: Env) {
    if InBrowser(env.globals) then env.dom.activeXTruthy || !env.dom.activeXInWindow else true
  }

  /** IE11 hides ActiveXObject while keeping the name in window. The Trident
      test also matches other Trident engines; off-browser the answer is true. */
  predicate IsIE11Browser(env: Env) {
    if InBrowser(env.globals) then !SupportsActiveXObject(env) && env.ua.trident else true
  }

  predicate SupportsInputPlaceholderOnFocus(env: Env) {
    SupportsInputPlaceholder(env) && !IsIE11Browser(env)
  }

  predicate SupportsHtmlFormValidation(env: Env) {
    if InBrowser(env.globals) then env.dom.inputCheckValidity else true
  }

  /** iOS validates forms but shows no notice for an empty required field. */
  predicate SupportsHtmlFormValidationWithRequiredNotice(env: Env) {
    if InBrowser(env.globals) then SupportsHtmlFormValidation(env) && !IsIOSDevice(env.ua) else true
  }

  // ---------------------------------------------------------------- WebGL

  /** One getContext call inside the try block: a thrown call ends the probe with false. */
  function ContextOutcome(call: GetContext, otherwise: bool): bool {
    match call
    case Throws => false
    case Returns(context) => context || otherwise
  }

  /** Off-browser, only "MSIE 0" / "MSIE 1" user agents are taken to lack WebGL. */
  predicate SupportsWebGl(env: Env) {
    if InBrowser(env.globals) then
      env.dom.webGLContextType
      && ContextOutcome(env.dom.webgl, ContextOutcome(env.dom.experimentalWebgl, false))
    else !env.ua.msieZeroOrOne
  }

  // ---------------------------------------------------------------- History and storage

  /** Reads `window` without checking for a browser; only defined when there is one. */
  predicate HasHistory(env: Env)
    requires InBrowser(env.globals)
  {
    env.dom.historyPushState
  }

  datatype StorageKind = Local | Session

  /** The try block of the storage probe: read the area, set a throwaway key,
      remove it. Any step that throws makes the probe false. */
  predicate RoundTripSucceeds(area: StorageArea) {
    if area.accessThrows then false
    else if !area.present then false
    else if area.setItemThrows then false
    else !area.removeItemThrows
  }

  predicate HasStorage(env: Env, kind: StorageKind) {
    if InBrowser(env.globals) then
      RoundTripSucceeds(if kind == Local then env.dom.localStorage else env.dom.sessionStorage)
    else false
  }

  // ---------------------------------------------------------------- Properties

  /** Off-browser every feature probe is optimistic except storage; the IE11
      test answers true, which turns placeholder-on-focus off. */
  lemma OffBrowserDefaults(env: Env, prop: string)
    requires !InBrowser(env.globals)
    ensures SupportsCss(env, prop) && SupportsTouchEvents(env) && SupportsGeolocation(env)
    ensures SupportsRangeInput(env) && SupportsInputPlaceholder(env)
    ensures SupportsHtmlFormValidation(env) && SupportsHtmlFormValidationWithRequiredNotice(env)
    ensures SupportsActiveXObject(env)
    ensures !HasStorage(env, Local) && !HasStorage(env, Session)
    ensures IsIE11Browser(env) && !SupportsInputPlaceholderOnFocus(env)
    ensures SupportsWebGl(env) <==> !env.ua.msieZeroOrOne
  {
  }

  /** The prefetch rules depend on the user agent alone, in and out of the browser. */
  lemma PrefetchRules(ua: UserAgent)
    ensures !DoPrefetchInHead(ua) <==> ua.chrome || ua.opera
    ensures !DoPrefetchInIframe(ua) <==> ua.firefox || (ua.trident && !ua.msieVersion)
  {
  }

  /** What the live branches add on top of the DOM facts. */
  lemma InBrowserRefinements(env: Env, prop: string)
    requires InBrowser(env.globals)
    ensures SupportsCss(env, prop) <==> CssPropertyPresent(env.dom.style, prop)
    ensures env.ua.msie || (env.dom.netscape && env.ua.trident) ==> !SupportsRangeInput(env)
    ensures SupportsHtmlFormValidationWithRequiredNotice(env) <==>
      SupportsHtmlFormValidation(env) && !IsIOSDevice(env.ua)
    ensures SupportsInputPlaceholderOnFocus(env) <==> SupportsInputPlaceholder(env) && !IsIE11Browser(env)
    ensures IsIE11Browser(env) <==> env.dom.activeXInWindow && !env.dom.activeXTruthy && env.ua.trident
    ensures HasStorage(env, Local) <==> RoundTripSucceeds(env.dom.localStorage)
    ensures HasStorage(env, Session) <==> RoundTripSucceeds(env.dom.sessionStorage)
    ensures env.dom.webgl.Throws? ==> !SupportsWebGl(env)
  {
  }

  /** The storage probe is true exactly when no step of the round-trip throws. */
  lemma RoundTripNeedsEveryStep(area: StorageArea)
    ensures RoundTripSucceeds(area) <==>
      !area.accessThrows && area.present && !area.setItemThrows && !area.removeItemThrows
  {
  }

  /** A name that is not in the enumeration gives null whatever the environment. */
  lemma UnknownSizeIsNull(env: Env, size: string)
    requires size != "" && !IsKnownSize(size)
    ensures ScreenSize(env, Some(size)) == Null
  {
  }

  /** A known, non-empty size name is compared with the name of the measured
      tier; off-browser nothing was measured, so the answer is false. */
  lemma NamedSizeComparesMeasuredName(env: Env, size: string)
    requires size != "" && IsKnownSize(size)
    ensures ScreenSize(env, Some(size)) ==
      B(InBrowser(env.globals) && Config[MeasuredIndex(MeasuredWidth(env.dom))].name == size)
  {
  }

  lemma NamedSizeFalseOffBrowser(env: Env, size: string)
    requires !InBrowser(env.globals)
    requires size != "" && IsKnownSize(size)
    ensures ScreenSize(env, Some(size)) == B(false)
  {
  }

  /** In a browser, asking for the k-th tier's name is asking whether the width is in tier k. */
  lemma NamedSizeMatchesMeasuredTier(env: Env, k: nat)
    requires InBrowser(env.globals)
    requires k < |Config|
    ensures ScreenSize(env, Some(Config[k].name)) == B(MeasuredIndex(MeasuredWidth(env.dom)) == k)
  {
    ConfigNamesKnown(k);
    ConfigNamesDistinct();
    NamedSizeComparesMeasuredName(env, Config[k].name);
  }

  /** The enumeration check is case-insensitive but the final comparison is not,
      so an upper-cased tier name passes validation and then never matches. */
  lemma UpperCaseSizeNeverMatches(env: Env, k: nat)
    requires k < |Config|
    ensures ScreenSize(env, Some(Upper(Config[k].name))) == B(false)
  {
    var size := Upper(Config[k].name);
    UpperKeepsUpperCase(size);
    ConfigNamesKnown(k);
    assert IsKnownSize(size);
    NamedSizeComparesMeasuredName(env, size);
    forall j | 0 <= j < |Config|
      ensures Config[j].name != size
    {
      ConfigNamesKnown(j);
    }
  }

  /** iOS and Android user agents are never guessed to be LARGE or HUGE. */
  lemma MobileFallbackIsAtMostMedium(env: Env)
    requires !InBrowser(env.globals)
    requires Consistent(env.ua)
    requires IsIOSDevice(env.ua) || IsAndroidDevice(env.ua)
    ensures ScreenSize(env, None) == N(SMALL) || ScreenSize(env, None) == N(MEDIUM)
  {
  }
}

=== FILE: registry.dfy ===
/** The registry of named capability tests: the 28 names, their string keys,
    the lookup from a key back to its test, running one test, and running all
    of them in registration order. */
module Registry {
  import opened Wrappers
  import opened Values
  import opened Breakpoints
  import opened UserAgent
  import opened Environment
  import Probes

  datatype TestName =
    | CssTransitions | CssColumns | CssGeneratedContent | CssOpacity
    | EventsTouch | Geolocation
    | ScreenSize | ScreenSizeTiny | ScreenSizeSmall | ScreenSizeMedium | ScreenSizeLarge | ScreenSizeHuge
    | HtmlPrefetchInHead | HtmlPrefetchInIframe
    | HtmlRange | HtmlFormValidation | HtmlFormValidationWithRequiredNotice
    | HtmlInputPlaceholder | HtmlInputPlaceholderOnFocus
    | IosAppStore | GooglePlayStore | IosWebView | AndroidWebView
    | ActiveXObject | WebGl | History | LocalStorage | SessionStorage

  /** Every test, in registration order. */
  const AllTests: seq<TestName> := [
    CssTransitions, CssColumns, CssGeneratedContent, CssOpacity,
    EventsTouch, Geolocation,
    ScreenSize, ScreenSizeTiny, ScreenSizeSmall, ScreenSizeMedium, ScreenSizeLarge, ScreenSizeHuge,
    HtmlPrefetchInHead, HtmlPrefetchInIframe,
    HtmlRange, HtmlFormValidation, HtmlFormValidationWithRequiredNotice,
    HtmlInputPlaceholder, HtmlInputPlaceholderOnFocus,
    IosAppStore, GooglePlayStore, IosWebView, AndroidWebView,
    ActiveXObject, WebGl, History, LocalStorage, SessionStorage
  ]

  /** The key a test is registered, queried and cached under. */
  function Key(t: TestName): string {
    match t
    case CssTransitions => "css-transitions"
    case CssColumns => "css-columns"
    case CssGeneratedContent => "css-generated-content"
    case CssOpacity => "css-opacity"
    case EventsTouch => "events-touch"
    case Geolocation => "geolocation"
    case ScreenSize => "screen-size"
    case ScreenSizeTiny => "screen-size-tiny"
    case ScreenSizeSmall => "screen-size-small"
    case ScreenSizeMedium => "screen-size-medium"
    case ScreenSizeLarge => "screen-size-large"
    case ScreenSizeHuge => "screen-size-huge"
    case HtmlPrefetchInHead => "html-prefetch-in-head"
    case HtmlPrefetchInIframe => "html-prefetch-in-iframe"
    case HtmlRange => "html-range"
    case HtmlFormValidation => "html-form-validation"
    case HtmlFormValidationWithRequiredNotice => "html-form-validation-with-required-notice"
    case HtmlInputPlaceholder => "html-input-placeholder"
    case HtmlInputPlaceholderOnFocus => "html-input-placeholder-on-focus"
    case IosAppStore => "ios-app-store"
    case GooglePlayStore => "google-play-store"
    case IosWebView => "ios-web-view"
    case AndroidWebView => "android-web-view"
    case ActiveXObject => "activex-object"
    case WebGl => "webgl"
    case History => "history"
    case LocalStorage => "localstorage"
    case SessionStorage => "sessionstorage"
  }

  /** Where a test sits in the registration order. */
  function Position(t: TestName): (i: nat)
    ensures i < |AllTests| && AllTests[i] == t
  {
    match t
    case CssTransitions => 0
    case CssColumns => 1
    case CssGeneratedContent => 2
    case CssOpacity => 3
    case EventsTouch => 4
    case Geolocation => 5
    case ScreenSize => 6
    case ScreenSizeTiny => 7
    case ScreenSizeSmall => 8
    case ScreenSizeMedium => 9
    case ScreenSizeLarge => 10
    case ScreenSizeHuge => 11
    case HtmlPrefetchInHead => 12
    case HtmlPrefetchInIframe => 13
    case HtmlRange => 14
    case HtmlFormValidation => 15
    case HtmlFormValidationWithRequiredNotice => 16
    case HtmlInputPlaceholder => 17
    case HtmlInputPlaceholderOnFocus => 18
    case IosAppStore => 19
    case GooglePlayStore => 20
    case IosWebView => 21
    case AndroidWebView => 22
    case ActiveXObject => 23
    case WebGl => 24
    case History => 25
    case LocalStorage => 26
    case SessionStorage => 27
  }

  lemma AllTestsComplete()
    ensures |AllTests| == 28
    ensures forall t: TestName :: t in AllTests
  {
    forall t: TestName
      ensures t in AllTests
    {
      assert AllTests[Position(t)] == t;
    }
  }

  lemma KeysInjective()
    ensures forall a: TestName, b: TestName :: Key(a) == Key(b) ==> a == b
  {
  }

  /** Registration order lists every test exactly once: the test at index i sits at position i. */
  lemma PositionInvertsAllTests()
    ensures forall i :: 0 <= i < |AllTests| ==> Position(AllTests[i]) == i
  {
  }

  /** No key is registered twice. */
  lemma AllTestsHaveDistinctKeys()
    ensures forall i, j :: 0 <= i < j < |AllTests| ==> Key(AllTests[i]) != Key(AllTests[j])
  {
    KeysInjective();
    PositionInvertsAllTests();
  }


  function KeysOf(tests: seq<TestName>): set<string> {
    set t | t in tests :: Key(t)
  }

  function RegisteredKeys(): set<string> {
    KeysOf(AllTests)
  }

  /** A list of tests with pairwise distinct keys has as many keys as tests. */
  lemma {:induction false} KeysOfCount(tests: seq<TestName>)
    requires forall i, j :: 0 <= i < j < |tests| ==> Key(tests[i]) != Key(tests[j])
    ensures |KeysOf(tests)| == |tests|
    decreases |tests|
  {
    if |tests| > 0 {
      var rest := tests[1..];
      KeysOfCount(rest);
      assert KeysOf(tests) == {Key(tests[0])} + KeysOf(rest);
      assert Key(tests[0]) !in KeysOf(rest) by {
        forall t | t in rest
          ensures Key(t) != Key(tests[0])
        {
          var j :| 0 <= j < |rest| && rest[j] == t;
          assert tests[j + 1] == t;
        }
      }
    }
  }

  /** The registry holds 28 distinct keys. */
  lemma RegisteredKeyCount()
    ensures |RegisteredKeys()| == 28
  {
    AllTestsHaveDistinctKeys();
    KeysOfCount(AllTests);
  }

  /** The first test in `tests` whose key is `name`. */
  function Find(tests: seq<TestName>, name: string): (r: Option<TestName>)
    ensures r.Some? ==> r.value in tests && Key(r.value) == name
    ensures r.Some? ==> exists i :: 0 <= i < |tests| && tests[i] == r.value
                          && forall j :: 0 <= j < i ==> Key(tests[j]) != name
    ensures r.None? ==> forall i :: 0 <= i < |tests| ==> Key(tests[i]) != name
  {
    if |tests| == 0 then None
    else if Key(tests[0]) == name then Some(tests[0])
    else Find(tests[1..], name)
  }

  /** `TESTS[name]`: the test registered under `name`, if any. */
  function Lookup(name: string): (r: Option<TestName>)
    ensures r.Some? ==> Key(r.value) == name
    ensures r.None? <==> name !in RegisteredKeys()
  {
    AllTestsComplete();
    Find(AllTests, name)
  }

  /** Looking up a test's own key finds that test. */
  lemma LookupKey(t: TestName)
    ensures Lookup(Key(t)) == Some(t)
  {
    KeysInjective();
  }

  /** A test may be run unless it is the history test outside a browser:
      that probe reads `window` unguarded. */
  predicate Runnable(env: Env, t: TestName) {
    t == History ==> InBrowser(env.globals)
  }

  /** Runs the probe registered for `t`. Only the plain screen-size test is a
      number (a tier ordinal); every other test is a boolean, and none is null
      because every screen-size test asks for a name the enumeration knows. */
  function RunTest(env: Env, t: TestName): (v: Value)
    requires Runnable(env, t)
    ensures t == ScreenSize ==> v.N? && v.n < |Config|
    ensures t != ScreenSize ==> v.B?
  {
    match t
    case CssTransitions => B(Probes.SupportsCss(env, "transition"))
    case CssColumns => B(Probes.SupportsCss(env, "columnCount"))
    case CssGeneratedContent => B(Probes.SupportsCss(env, "content"))
    case CssOpacity => B(Probes.SupportsCss(env, "opacity"))
    case EventsTouch => B(Probes.SupportsTouchEvents(env))
    case Geolocation => B(Probes.SupportsGeolocation(env))
    case ScreenSize => Probes.ScreenSize(env, None)
    case ScreenSizeTiny => NamedSize(env, TINY)
    case ScreenSizeSmall => NamedSize(env, SMALL)
    case ScreenSizeMedium => NamedSize(env, MEDIUM)
    case ScreenSizeLarge => NamedSize(env, LARGE)
    case ScreenSizeHuge => NamedSize(env, HUGE)
    case HtmlPrefetchInHead => B(Probes.DoPrefetchInHead(env.ua))
    case HtmlPrefetchInIframe => B(Probes.DoPrefetchInIframe(env.ua))
    case HtmlRange => B(Probes.SupportsRangeInput(env))
    case HtmlFormValidation => B(Probes.SupportsHtmlFormValidation(env))
    case HtmlFormValidationWithRequiredNotice => B(Probes.SupportsHtmlFormValidationWithRequiredNotice(env))
    case HtmlInputPlaceholder => B(Probes.SupportsInputPlaceholder(env))
    case HtmlInputPlaceholderOnFocus => B(Probes.SupportsInputPlaceholderOnFocus(env))
    case IosAppStore => B(IsIOSDevice(env.ua))
    case GooglePlayStore => B(IsAndroidDevice(env.ua))
    case IosWebView => B(IsIOSWebView(env.ua))
    case AndroidWebView => B(IsAndroidWebView(env.ua))
    case ActiveXObject => B(Probes.SupportsActiveXObject(env))
    case WebGl => B(Probes.SupportsWebGl(env))
    case History => B(Probes.HasHistory(env))
    case LocalStorage => B(Probes.HasStorage(env, Probes.Local))
    case SessionStorage => B(Probes.HasStorage(env, Probes.Session))
  }

  /** `_screenSize(name)` for the k-th tier's name: whether the measured tier is k. */
  function NamedSize(env: Env, k: nat): (v: Value)
    requires k < |Config|
    ensures v == B(InBrowser(env.globals) && MeasuredIndex(MeasuredWidth(env.dom)) == k)
  {
    ConfigNamesKnown(k);
    ConfigNamesDistinct();
    Probes.NamedSizeComparesMeasuredName(env, Config[k].name);
    Probes.ScreenSize(env, Some(Config[k].name))
  }

  /** The device and store markers read only the user agent, so they answer
      the same in a browser and on the server. */
  lemma UserAgentTestsIgnoreTier(e1: Env, e2: Env, t: TestName)
    requires e1.ua == e2.ua
    requires t in {HtmlPrefetchInHead, HtmlPrefetchInIframe, IosAppStore, GooglePlayStore, IosWebView, AndroidWebView}
    ensures RunTest(e1, t) == RunTest(e2, t)
  {
  }

  /** The `for ... in TESTS` loop that fills an empty cookie: every test in
      `tests` is run and stored under its key; other keys keep their values. */
  function FillFrom(env: Env, tests: seq<TestName>, acc: map<string, Value>): (m: map<string, Value>)
    requires InBrowser(env.globals)
    ensures m.Keys == acc.Keys + KeysOf(tests)
    ensures forall t :: t in tests ==> m[Key(t)] == RunTest(env, t)
    ensures forall k :: k in acc && (forall t :: t in tests ==> Key(t) != k) ==> m[k] == acc[k]
    decreases |tests|
  {
    KeysInjective();
    if |tests| == 0 then acc
    else FillFrom(env, tests[1..], acc[Key(tests[0]) := RunTest(env, tests[0])])
  }

  /** Every registered test, run in a browser. */
  function FillAll(env: Env): (m: map<string, Value>)
    requires InBrowser(env.globals)
    ensures m.Keys == RegisteredKeys()
    ensures forall t :: Key(t) in m && m[Key(t)] == RunTest(env, t)
  {
    FillAllCoversEveryTest(env);
    FillFrom(env, AllTests, map[])
  }

  /** The registration list names every test, so filling from it covers them all. */
  lemma FillAllCoversEveryTest(env: Env)
    requires InBrowser(env.globals)
    ensures FillFrom(env, AllTests, map[]).Keys == RegisteredKeys()
    ensures forall t :: Key(t) in FillFrom(env, AllTests, map[]) && FillFrom(env, AllTests, map[])[Key(t)] == RunTest(env, t)
  {
    AllTestsComplete();
    FillCoversEveryListedTest(env, AllTests);
  }

  /** Filling from any list that names every test covers them all. */
  lemma FillCoversEveryListedTest(env: Env, tests: seq<TestName>)
    requires InBrowser(env.globals)
    requires forall t: TestName :: t in tests
    ensures FillFrom(env, tests, map[]).Keys == KeysOf(tests)
    ensures forall t :: Key(t) in FillFrom(env, tests, map[]) && FillFrom(env, tests, map[])[Key(t)] == RunTest(env, t)
  {
  }
}

=== FILE: text.dfy ===
/** The two string transformations the detector applies to names:
    `String.prototype.toUpperCase` (restricted to ASCII letters) and the
    "upper-case the first letter" rewrite used for vendor-prefixed CSS names. */
module Text {

  predicate IsLowerAscii(c: char) {
    'a' <= c <= 'z'
  }

  function UpperChar(c: char): (u: char)
    ensures IsLowerAscii(c) ==> u as int == c as int - 32
    ensures !IsLowerAscii(c) ==> u == c
    ensures !IsLowerAscii(u)
  {
    if IsLowerAscii(c) then (c as int - 32) as char else c
  }

  /** Upper-cases every ASCII lower-case letter and leaves every other character alone. */
  function Upper(s: string): (u: string)
    ensures |u| == |s|
    ensures forall i :: 0 <= i < |s| ==> u[i] == UpperChar(s[i])
  {
    seq(|s|, i requires 0 <= i < |s| => UpperChar(s[i]))
  }

  /** Upper-casing changes nothing in a string without ASCII lower-case letters. */
  lemma UpperKeepsUpperCase(s: string)
    requires forall i :: 0 <= i < |s| ==> !IsLowerAscii(s[i])
    ensures Upper(s) == s
  {
  }

  /** `prop.replace(/^[a-z]/, c => c.toUpperCase())`: only a leading ASCII
      lower-case letter changes; the rest of the string is kept. */
  function Capitalize(s: string): (c: string)
    ensures |c| == |s|
    ensures |s| > 0 ==> c[1..] == s[1..]
    ensures |s| > 0 ==> c[0] == UpperChar(s[0])
  {
    if |s| == 0 then s else [UpperChar(s[0])] + s[1..]
  }
}

=== FILE: user_agent.dfy ===
/** The request's user-agent string, seen through the regular expressions the
    detector tests it against, and the device classifiers built on them. Each
    field records whether one expression matches; the expressions themselves
    are not modelled. */
module UserAgent {

  datatype UserAgent = UserAgent(
    knownMobile: bool,    // the broad "known mobile device" expression (case-insensitive)
    knownPhone: bool,     // the narrower "known phone device" expression (case-insensitive)
    ios: bool,            // iPhone or iPad as a word, or iPod anywhere
    safari: bool,         // the token "Safari"
    android: bool,        // "Android" then a space or dash and a version number
    versionMarker: bool,  // "Version/" then digit, dot, digit
    chrome: bool,         // "Chrome/"
    opera: bool,          // "Opera"
    firefox: bool,        // "Firefox"
    trident: bool,        // "Trident/" followed later by a digit (also used as the "IE11" test)
    msie: bool,           // the token "MSIE"
    msieVersion: bool,    // "MSIE " then a digit (the "IE 10 or less" test)
    msieZeroOrOne: bool   // "MSIE " then 0 or 1 (the character class [0-10] is {0, 1})
  )

  /** Implications that follow from the texts of the expressions: every iOS
      and Android token is also a "known mobile" token, and the MSIE patterns
      are nested. A known phone need not be a known mobile device ("WindowsCE"
      matches only the phone expression). */
  predicate Consistent(ua: UserAgent) {
    && (ua.android ==> ua.knownMobile)
    && (ua.ios ==> ua.knownMobile)
    && (ua.msieZeroOrOne ==> ua.msieVersion)
    && (ua.msieVersion ==> ua.msie)
  }

  predicate IsKnownPhoneDevice(ua: UserAgent) {
    ua.knownPhone
  }

  /** A tablet is a known mobile device that is not a known phone: phone patterns take precedence. */
  predicate IsKnownTabletDevice(ua: UserAgent) {
    ua.knownMobile && !ua.knownPhone
  }

  predicate IsIOSDevice(ua: UserAgent) {
    ua.ios
  }

  predicate IsAndroidDevice(ua: UserAgent) {
    ua.android
  }

  /** In-app iOS web views leave "Safari" out of the user agent. */
  predicate IsIOSWebView(ua: UserAgent) {
    IsIOSDevice(ua) && !ua.safari
  }

  /** In-app Android web views carry a "Version/x.y" marker. */
  predicate IsAndroidWebView(ua: UserAgent) {
    IsAndroidDevice(ua) && ua.versionMarker
  }

  datatype DeviceClass = Phone | Tablet | Desktop

  /** The coarse device class the off-browser screen-size guess is based on. */
  function Classify(ua: UserAgent): (c: DeviceClass)
    ensures c == Phone <==> IsKnownPhoneDevice(ua)
    ensures c == Tablet <==> IsKnownTabletDevice(ua)
    ensures c == Desktop <==> !ua.knownMobile && !ua.knownPhone
  {
    if IsKnownPhoneDevice(ua) then Phone
    else if IsKnownTabletDevice(ua) then Tablet
    else Desktop
  }

  lemma PhoneAndTabletAreExclusive(ua: UserAgent)
    ensures !(IsKnownPhoneDevice(ua) && IsKnownTabletDevice(ua))
    ensures IsKnownTabletDevice(ua) <==> ua.knownMobile && !IsKnownPhoneDevice(ua)
  {
  }

  lemma WebViewRules(ua: UserAgent)
    ensures IsIOSWebView(ua) <==> ua.ios && !ua.safari
    ensures IsAndroidWebView(ua) <==> ua.android && ua.versionMarker
    ensures IsIOSWebView(ua) ==> IsIOSDevice(ua)
    ensures IsAndroidWebView(ua) ==> IsAndroidDevice(ua)
  {
  }

  /** Every iOS or Android user agent classifies as a phone or a tablet. */
  lemma MobilePlatformsAreNotDesktop(ua: UserAgent)
    requires Consistent(ua)
    requires IsIOSDevice(ua) || IsAndroidDevice(ua)
    ensures Classify(ua) != Desktop
  {
  }
}

=== FILE: values.dfy ===
/** What a capability test can return, and what the persisted cookie can hold
    for one test: a boolean, a non-negative integer (a screen tier) or null. */
module Values {

  datatype Value = B(b: bool) | N(n: nat) | Null
}

=== FILE: wrappers.dfy ===
/** The Some/None datatype used for values that may be absent
    (an absent cookie, an unregistered test name, no satisfied breakpoint). */
module Wrappers {

  datatype Option<+T> = None | Some(value: T)
}
